=== FILE: README.md ===
# Groups-claims enrichment, modelled in Dafny

This project models the core of AuthOida, a library that adds group display
names to an authenticated principal. A validated token carries opaque group
ids. The library looks each id up in a per-scheme `groupId -> displayName` map
built from the directory service. It then appends one new sub-identity to the
principal, holding one role-like claim per resolved group.

Both packages of the repository are covered:

- the newer `AuthOida.Microsoft.Identity.Groups`: `GroupsMapper` delegates to `GroupsMapping`;
- the older `OidaAuth.Micorosft.Identity.Groups` / `OidaAuth.Microsoft.Identity.Groups`: the same steps are inlined.

Modules, one per component:

| module | file | models |
|---|---|---|
| `Wrappers` | wrappers.dfy | `Option` (a C# null is `None`), `Result`, the exception kinds, `string.IsNullOrEmpty` |
| `Claims` | claims.dfy | claims, sub-identities, principals, `FindFirst`, the claim-type constants |
| `GroupsMaps` | groups_map.dfy | `IGroupsMap` and `GroupsMapDictionary` (an immutable snapshot) |
| `Options` | options.dfy | `GroupsMappingOptions` and its defaults; the identity options the pipeline reads |
| `Credentials` | credentials.dfy | `TokenCredentialConversion` and the inline `GetCredentialByIdentityOptions` |
| `GraphFactory` | graph_factory.dfy | `GraphGroupsMapFactory.Create` in both packages, with the paged query abstracted |
| `GroupsMapping` | groups_mapping.dfy | claim selection, resolution and the append |
| `Obtainer` | obtainer.dfy | `GroupsMapObtainer`: per-scheme memoisation, sequential |
| `Enrichment` | enrichment.dfy | `EnrichPrincipalWithMappedRoles` and `AugmentPrincipalWithMappedRoles` |

Modelling choices:

- **Exceptions.** A thrown exception is a `Result.Failure`. Its error names the exception kind and, for argument errors, the parameter.
- **Mutation.** Mutating the principal is modelled as returning the principal after the call.
- **Directory query.** The paged query is a function from the credential to the full ordered list of `(id, displayName)` pairs, or to a failure.
- **Map factory.** `IGroupsMapFactory` is an oracle: each `GetOrCreate` call receives the outcome the factory would produce if it were invoked now.
- **Call counter.** The obtainer's state counts factory invocations per scheme. This counter exists only in the model, so that "built once" can be stated.
- **Entry-point results.** The entry points also return the requests they make to the option accessors and the obtainer, in order.

Behaviour of the code worth knowing, which the model follows:

- **Duplicate group ids.** The first display name listed for a duplicate id is kept, because the fold into the dictionary uses `GetOrAdd` (src/AuthOida.Microsoft.Identity.Groups/GraphGroupsMapFactory.cs:64).
- **Tenant check.** Only the first tenant-id claim of a sub-identity is checked. A later matching tenant claim does not make it eligible.
- **Null configuration.** In the newer package, a null tenant id or a null option throws from the `GroupsMapping` constructor. The mapping step is not error-free.
- **Missing credential in the newer package.** The documentation comment of `GraphGroupsMapFactory.Create` announces an `InvalidOperationException` when neither secret nor certificate is configured. The code raises the `NotImplementedException` of `FromIdentityOptions` instead, and the conversion's own tests expect that exception. The model follows the code: see the contracts of `GraphFactory.Create` and `Credentials.CredentialDecisionsAgree`.
- **Older package with a null group claim type.** Creating a claim with a null type raises an argument-null error for `type`. The older package therefore fails only when some candidate resolves, and otherwise maps nothing.
- **No single-flight.** The obtainer is a plain dictionary with check-then-act. There is no single-flight build. Only the sequential behaviour is modelled, and no concurrent guarantee is claimed.

## Model

| member | source | states |
|---|---|---|
| `Claims.FindFirst` | src/AuthOida.Microsoft.Identity.Groups/GroupsMapping.cs:48 | the result is absent exactly when no claim has the type; otherwise it is a claim of that type with no earlier claim of that type |
| `GroupsMaps.FromSource` | src/AuthOida.Microsoft.Identity.Groups/GroupsMapDictionary.cs:20-26 | a null source raises argument-null `backingDictionary`; otherwise the map holds exactly the source's keys with the source's values |
| `GroupsMaps.TryGetValue` | src/AuthOida.Microsoft.Identity.Groups/IGroupsMap.cs:10-17 | a null id raises argument-null; otherwise found iff the id is present, the out value is its display name when found and null when not |
| `GroupsMaps.Item` | src/AuthOida.Microsoft.Identity.Groups/GroupsMapDictionary.cs:33 | the stored value for a present key, key-not-found for an absent key, argument-null for a null key |
| `GroupsMaps.ContainsKey` | src/AuthOida.Microsoft.Identity.Groups/GroupsMapDictionary.cs:45 | fails exactly on a null key, and otherwise agrees with `TryGetValue` |
| `GroupsMaps.Keys` | src/AuthOida.Microsoft.Identity.Groups/GroupsMapDictionary.cs:36 | the keys are exactly the ids `TryGetValue` finds |
| `GroupsMaps.Values` | src/AuthOida.Microsoft.Identity.Groups/GroupsMapDictionary.cs:39 | the values are exactly the display names the indexer returns for some id |
| `GroupsMaps.Count` | src/AuthOida.Microsoft.Identity.Groups/GroupsMapDictionary.cs:42 | the count is the number of keys |
| `GroupsMaps.SnapshotBehavesLikeSource` | src/AuthOida.Microsoft.Identity.Groups/GroupsMapDictionary.cs:28-45 | a map built from a source has the source's keys, values and count, and `TryGetValue`, `ContainsKey` and the indexer agree with the source |
| `GroupsMaps.SnapshotIgnoresLaterChanges` | src/AuthOida.Microsoft.Identity.Groups/GroupsMapDictionary.cs:25 | a map built before a source entry is replaced keeps the old display name, one built afterwards has the new one, and the two differ on that key exactly when the value changed and agree on every other key |
| `Options.Default` | src/AuthOida.Microsoft.Identity.Groups/GroupsMappingOptions.cs:29-34 | the defaults are `groups`, `MappedGroups` and the standard role claim type, all non-null |
| `Credentials.FromIdentityOptions` | src/AuthOida.Microsoft.Identity.Groups/TokenCredentialConversion.cs:11-23 | null options raise argument-null. Certificates present gives a certificate credential from the first certificate. Otherwise a non-null secret, even an empty one, gives a secret credential. Otherwise not-implemented. Tenant and client id pass through, null or not |
| `Credentials.CertificatePreferred` | src/OidaAuth.Microsoft.Identity.Groups/TokenCredentialConversion.cs:16-20 | with certificates configured, the credential is a certificate credential and does not depend on the secret at all |
| `Credentials.GetCredentialByIdentityOptions` | src/OidaAuth.Microsoft.Identity.Groups/GraphGroupsMapFactory.cs:85-94 | fails exactly when there is neither a certificate nor a secret, with an invalid-operation error naming the scheme; certificates give a certificate credential from the first one |
| `Credentials.CredentialDecisionsAgree` | src/OidaAuth.Microsoft.Identity.Groups/GraphGroupsMapFactory.cs:87-93 | the inline decision and `FromIdentityOptions` succeed on the same options with the same credential and differ only in the error kind |
| `GraphFactory.Accumulate` | src/AuthOida.Microsoft.Identity.Groups/GraphGroupsMapFactory.cs:61-68 | the accumulated keys are exactly the listed ids, and each id keeps the display name of its first occurrence |
| `GraphFactory.FromListing` | src/OidaAuth.Microsoft.Identity.Groups/GraphGroupsMapFactory.cs:64-73 | a failed listing propagates; a listing yields a map copy holding exactly its ids with first-occurrence names |
| `GraphFactory.Create` | src/AuthOida.Microsoft.Identity.Groups/GraphGroupsMapFactory.cs:39-80 | a null or empty scheme raises an argument error before any credential. Credential failures from `FromIdentityOptions` and directory failures propagate. Otherwise the result is the first-wins map of the listing |
| `GraphFactory.CreateOidaAuth` | src/OidaAuth.Microsoft.Identity.Groups/GraphGroupsMapFactory.cs:42-83 | the same argument check; a missing credential is an invalid-operation error naming the scheme; otherwise as `Create` |
| `GroupsMapping.New` | src/AuthOida.Microsoft.Identity.Groups/GroupsMapping.cs:17-24 | construction succeeds iff no argument is null; the first null argument, in declaration order, is the one named in the argument-null error |
| `GroupsMapping.Prepare` | src/AuthOida.Microsoft.Identity.Groups/GroupsMapping.cs:26-29 | the tenant id comes from the identity options and the three types from the mapping options; a null tenant id raises argument-null `tenantId` |
| `GroupsMapping.IsEligible` | src/AuthOida.Microsoft.Identity.Groups/GroupsMapping.cs:47-50 | an eligible sub-identity holds a tenant-id claim with the tenant id; the exact characterisation is `GroupsMapping.EligibleIffFirstTenantClaimMatches` |
| `GroupsMapping.EligibleIffFirstTenantClaimMatches` | src/AuthOida.Microsoft.Identity.Groups/GroupsMapping.cs:47-50 | a sub-identity is eligible iff its first tenant-id claim carries the tenant id |
| `GroupsMapping.ClaimsOfType` | src/AuthOida.Microsoft.Identity.Groups/GroupsMapping.cs:52-54 | every selected claim has the requested type and there are no more of them than claims; membership, order and duplicates are in `GroupsMapping.ClaimsOfTypeMembers` and `GroupsMapping.ClaimsOfTypeAppend` |
| `GroupsMapping.ClaimsOfTypeMembers` | src/AuthOida.Microsoft.Identity.Groups/GroupsMapping.cs:52-54 | exactly the claims whose type equals the requested type are selected |
| `GroupsMapping.ClaimsOfTypeAppend` | src/AuthOida.Microsoft.Identity.Groups/GroupsMapping.cs:52-54 | selection within one identity distributes over concatenation, so the claims keep their order and duplicates are kept |
| `GroupsMapping.GetGroupClaims` | src/AuthOida.Microsoft.Identity.Groups/GroupsMapping.cs:45-57 | every candidate has the token group claim type; membership and order are in `GroupsMapping.GroupClaimsMembers`, `GroupsMapping.GroupClaimsAppend` and `GroupsMapping.EligibleSingleton` |
| `GroupsMapping.EligibleSingleton` | src/AuthOida.Microsoft.Identity.Groups/GroupsMapping.cs:47-54 | a lone eligible sub-identity contributes exactly its token group claims, in their order |
| `GroupsMapping.GroupClaimsMembers` | src/AuthOida.Microsoft.Identity.Groups/GroupsMapping.cs:45-57 | a claim is a candidate iff it has the token group claim type and belongs to a sub-identity whose first tenant claim holds the tenant id |
| `GroupsMapping.GroupClaimsAppend` | src/AuthOida.Microsoft.Identity.Groups/GroupsMapping.cs:47-54 | candidates are selected identity by identity, so selection distributes over concatenating sub-identities and keeps identity-then-claim order |
| `GroupsMapping.IneligibleIdentityContributesNothing` | src/AuthOida.Microsoft.Identity.Groups/GroupsMapping.cs:47-50 | removing a sub-identity without a matching first tenant claim does not change the candidates, even when other sub-identities match |
| `GroupsMapping.MapClaims` | src/AuthOida.Microsoft.Identity.Groups/GroupsMapping.cs:35-39 | no more mapped claims than candidates, each with the group claim type and the string value type; membership and order are in `GroupsMapping.MapClaimsMembers` and `GroupsMapping.MapClaimsAppend` |
| `GroupsMapping.MapClaimsMembers` | src/AuthOida.Microsoft.Identity.Groups/GroupsMapping.cs:59-67 | the mapped claims are exactly the group-claim-type string claims of the resolving candidates' display names; none exist iff no candidate resolves |
| `GroupsMapping.MapClaimsAppend` | src/AuthOida.Microsoft.Identity.Groups/GroupsMapping.cs:35-39 | mapping distributes over concatenation, so the mapped claims keep the candidates' order |
| `GroupsMapping.PerformMappingOn` | src/AuthOida.Microsoft.Identity.Groups/GroupsMapping.cs:31-43 | existing identities are untouched. Exactly one identity is appended iff some claim was mapped. It carries the configured authentication type and exactly the mapped claims |
| `GroupsMapping.NoEligibleIdentityNoChange` | src/AuthOida.Microsoft.Identity.Groups/GroupsMapping.cs:45-50 | when no sub-identity's first tenant claim matches, the principal is unchanged whatever group claims it holds |
| `GroupsMapping.NoEligibleIdentityNoCandidates` | src/AuthOida.Microsoft.Identity.Groups/GroupsMapping.cs:47-54 | without an eligible sub-identity there is no candidate claim |
| `GroupsMapping.IneligibleSingletonSelectsNothing` | src/AuthOida.Microsoft.Identity.Groups/GroupsMapping.cs:49-50 | a lone sub-identity without a matching tenant claim yields no candidate |
| `GroupsMapping.UnresolvedCandidatesNoChange` | src/AuthOida.Microsoft.Identity.Groups/GroupsMapping.cs:35-42 | when every candidate misses the map, no identity is added and the principal is unchanged |
| `GroupsMapping.MappedClaimsAreGroupClaims` | src/AuthOida.Microsoft.Identity.Groups/GroupsMapping.cs:61-65 | every mapped claim has the group claim type, the string value type and a known display name as value |
| `GroupsMapping.ResolvedCandidateIsMapped` | src/AuthOida.Microsoft.Identity.Groups/GroupsMapping.cs:59-75 | a resolvable token group claim of an eligible sub-identity makes an identity appear, and its display name is among that identity's claims |
| `GroupsMapping.RepeatedMappingAppendsAgain` | src/AuthOida.Microsoft.Identity.Groups/GroupsMapping.cs:69-75 | mapping twice appends a second identical identity, since the appended identity carries no tenant claim: the step is not idempotent |
| `GroupsMapping.RoundTripExample` | src/AuthOida.Microsoft.Identity.Groups/GroupsMapping.cs:26-43 | with the default options, tenant `t1`, one group claim `g1` and the map `{g1: Alpha}`, preparing and mapping appends exactly one `MappedGroups` identity holding the role claim `Alpha` |
| `GroupsMapping.ClaimTypeMatchIsExact` | test/AuthOida.Microsoft.Identity.Groups.Tests/GroupsMappingTests.cs:74-87 | a token group claim type differing only by a trailing space selects no candidate |
| `Obtainer.EnsureCreated` | src/AuthOida.Microsoft.Identity.Groups/GroupsMapObtainer.cs:52-60 | a cached scheme is left as is. Otherwise the factory count rises by one, and a built map is stored as the scheme's entry with every other entry kept. Afterwards the scheme is cached unless the factory failed, in which case nothing was stored. Other schemes' counts never change |
| `Obtainer.GetOrCreate` | src/AuthOida.Microsoft.Identity.Groups/GroupsMapObtainer.cs:37-50 | a null or empty scheme raises an argument error with nothing changed. A cached scheme returns its map without a factory call. Otherwise exactly one factory call, whose map is stored and returned or whose failure is returned with nothing stored |
| `Obtainer.GetOrCreatePreservesConsistency` | src/AuthOida.Microsoft.Identity.Groups/GroupsMapObtainer.cs:54-59 | every cached map stays accounted for by at least one factory call for its non-empty scheme |
| `Obtainer.OtherSchemesUntouched` | src/AuthOida.Microsoft.Identity.Groups/GroupsMapObtainer.cs:59 | a call for one scheme leaves every other scheme's entry and factory count unchanged |
| `Obtainer.SecondCallHitsCache` | test/AuthOida.Microsoft.Identity.Groups.Tests/GroupsMapObtainerTests.cs:31-41 | after a successful call, a second call for the same scheme returns the same map with no further factory call; the two calls together invoke the factory once if the scheme was not cached, and never if it was |
| `Obtainer.FailureIsNotCached` | src/AuthOida.Microsoft.Identity.Groups/GroupsMapObtainer.cs:58-59 | a failed build stores nothing, and the next call for that scheme invokes the factory again |
| `Obtainer.CachedEntryIsStable` | src/AuthOida.Microsoft.Identity.Groups/GroupsMapObtainer.cs:54-56 | once stored, a scheme's map is never replaced and its factory is never invoked again, whatever requests follow |
| `Obtainer.TwoSchemesScenario` | test/AuthOida.Microsoft.Identity.Groups.Tests/GroupsMapObtainerTests.cs:31-55 | lookups A, A, B starting empty build once for each scheme and cache both maps |
| `Obtainer.EmptySchemeScenario` | src/AuthOida.Microsoft.Identity.Groups/GroupsMapObtainer.cs:39-40 | an empty scheme raises an argument error and no factory call is made |
| `Enrichment.EnrichPrincipalWithMappedRoles` | src/AuthOida.Microsoft.Identity.Groups/GroupsMapper.cs:46-66 | a null or empty scheme fails before any request. A null principal is a no-op. Otherwise identity options, mapping options and the map are requested for the scheme. Map or option failures propagate with the principal untouched. On success the principal is `PerformMappingOn(Prepare(...))` of it |
| `Enrichment.AugmentPrincipalWithMappedRoles` | src/OidaAuth.Micorosft.Identity.Groups/GroupsMapper.cs:47-106 | the same validation and no-op. The map is requested whether or not there are group claims, and failures propagate with the principal untouched. Otherwise only an append happens, and an identity is appended iff the group claim type is non-null and some candidate maps. That identity has the configured authentication type, null or not, and holds exactly the mapped claims of the candidates, in order |
| `Enrichment.OidaGroupClaims` | src/OidaAuth.Micorosft.Identity.Groups/GroupsMapper.cs:74-88 | a null tenant id or a null token group claim type selects no candidate |
| `Enrichment.OidaGroupClaimsMembers` | src/OidaAuth.Micorosft.Identity.Groups/GroupsMapper.cs:78-85 | a claim is a candidate iff both settings are non-null and it has the token group claim type in a sub-identity whose first tenant claim holds the tenant id |
| `Enrichment.OidaMapClaims` | src/OidaAuth.Micorosft.Identity.Groups/GroupsMapper.cs:90-98 | with a group claim type, the result is the newer package's mapped claims. With a null one, it fails with argument-null `type` exactly when some candidate resolves, and is empty otherwise |
| `Enrichment.ResolvingCandidateExists` | src/OidaAuth.Micorosft.Identity.Groups/GroupsMapper.cs:78-93 | some candidate resolves iff both settings are non-null and some token group claim of an eligible sub-identity is a known group id |
| `Enrichment.CandidateIsEligibleGroupClaim` | src/OidaAuth.Micorosft.Identity.Groups/GroupsMapper.cs:78-85 | every candidate is a token group claim of an eligible sub-identity |
| `Enrichment.EligibleGroupClaimIsCandidate` | src/OidaAuth.Micorosft.Identity.Groups/GroupsMapper.cs:78-85 | every token group claim of an eligible sub-identity is a candidate |
| `Enrichment.ResolvingCandidateIsResolvingClaim` | src/OidaAuth.Micorosft.Identity.Groups/GroupsMapper.cs:78-93 | a resolving candidate is a resolving token group claim of an eligible sub-identity |
| `Enrichment.ResolvingClaimIsResolvingCandidate` | src/OidaAuth.Micorosft.Identity.Groups/GroupsMapper.cs:78-93 | a resolving token group claim of an eligible sub-identity is a resolving candidate |
| `Enrichment.NullGroupClaimTypeFailsOnHit` | src/OidaAuth.Micorosft.Identity.Groups/GroupsMapper.cs:63-98 | with a null group claim type and the map obtained, the call fails with argument-null `type` exactly when some token group claim of an eligible sub-identity resolves, and the principal is never changed |
| `Enrichment.VariantsAgree` | src/OidaAuth.Micorosft.Identity.Groups/GroupsMapper.cs:58-88 | with all options configured, both packages' entry points have the same effect on principal, obtainer and error, and make the same requests in a different order |
| `Enrichment.NullTenantDiverges` | src/OidaAuth.Micorosft.Identity.Groups/GroupsMapper.cs:76-81 | with no tenant id configured the newer package raises argument-null `tenantId`, the older one maps nothing and leaves the principal unchanged |
| `Enrichment.EnrichScenario` | test/AuthOida.Microsoft.Identity.Groups.Tests/GroupsMapperTests.cs:74-93 | a matching tenant claim plus one resolvable group claim yields exactly one identity of the configured authentication type, and one build for the scheme |

## Left out

- **Concurrency.** The obtainer's check-then-act on a non-thread-safe dictionary is modelled sequentially. Nothing is claimed about concurrent callers or single-flight builds.
- **Asynchrony and cancellation.** Tasks and cancellation tokens are not modelled. An argument error thrown synchronously and a failure of the returned task are both a `Failure`. The no-op for a null principal is not modelled as the identical completed task object.
- **Directory client.** The directory client, its paging, scopes and HTTP transport are reduced to one function from credential to the complete group listing or a failure.
- **Credential objects.** The Azure credential objects are reduced to a tagged datatype holding tenant id, client id and the certificate or secret.
- **Factory oracle.** `IGroupsMapFactory` is a bare interface. The obtainer and the entry points take its outcome as a parameter instead of calling a particular factory.
- **Other map implementations.** `IGroupsMap` is modelled only by `GroupsMapDictionary`. Other implementations, such as test fakes, are not part of this model.
- **Null listing entries.** Null group ids or display names coming from the directory are not modelled.
- **Tenant-claim type comparison.** `FindFirst` on the tenant-id claim type is modelled with exact comparison. The framework compares claim types case-insensitively, and nothing is proved about case.
- **Claim metadata.** The issuer and the other claim properties are not modelled.
- **Framework wiring.** The dependency-injection registration and the token-validated event hooks are framework integration with no state to reason about. The null checks on injected accessors in the constructors of `GroupsMapper`, `GroupsMapObtainer` and `GraphGroupsMapFactory` are left out for the same reason.
- **Options setters.** The three settable properties of `GroupsMappingOptions` are fields of a value datatype. That setting one leaves the others unchanged follows from datatype update and is not stated separately.
- **Dictionary enumeration.** The `GetEnumerator` members of `GroupsMapDictionary` only enumerate the snapshot.
- GroupsMaps.SnapshotBehavesLikeSource: compares `Values` as a set, so the multiplicity of repeated display names is not stated.
- Credentials.FromIdentityOptions: passes a null tenant id or client id through into the credential. The Azure credential constructors reject such nulls with their own argument-null errors; their code is not part of this model. A certificate description whose certificate is not loaded is not modelled either: the certificate is always present.
- Credentials.GetCredentialByIdentityOptions: passes a null tenant id or client id through in the same way, for the same reason.

=== FILE: claims.dfy ===
/**
 Claims, sub-identities and principals, reduced to what the enrichment
 pipeline reads and writes.
 */
module Claims {
  import opened Wrappers

  /** Claim type under which a token carries the id of its issuing tenant. */
  const TenantIdClaimType: string := "http://schemas.microsoft.com/identity/claims/tenantid"

  /** The standard role claim type. */
  const RoleClaimType: string := "http://schemas.microsoft.com/ws/2008/06/identity/claims/role"

  /** The value type of a plain string claim. */
  const StringValueType: string := "http://www.w3.org/2001/XMLSchema#string"

  datatype Claim = Claim(claimType: string, value: string, valueType: string)

  /** A sub-identity: its authentication type (`None` when created without one) and its claims, in order. */
  datatype Identity = Identity(authenticationType: Option<string>, claims: seq<Claim>)

  /** A principal is its sub-identities, in the order they were added. */
  type Principal = seq<Identity>

  /** The first claim of the given type, if there is one. */
  function FindFirst(claims: seq<Claim>, claimType: string): (r: Option<Claim>)
    ensures r.None? <==> forall i :: 0 <= i < |claims| ==> claims[i].claimType != claimType
    ensures r.Some? ==>
      exists i :: 0 <= i < |claims| && claims[i] == r.value && r.value.claimType == claimType &&
        forall j :: 0 <= j < i ==> claims[j].claimType != claimType
  {
    if |claims| == 0 then None
    else if claims[0].claimType == claimType then Some(claims[0])
    else
      var rest := FindFirst(claims[1..], claimType);
      assert forall i :: 1 <= i < |claims| ==> claims[i] == claims[1..][i - 1];
      rest
  }
}

=== FILE: credentials.dfy ===
/**
 Choice of the application credential used against the directory service:
 a certificate credential when certificates are configured, otherwise a
 client-secret credential, otherwise an error. The credential objects
 themselves are reduced to what they are built from.
 */
module Credentials {
  import opened Wrappers
  import opened Options

  datatype TokenCredential =
    | ClientCertificateCredential(tenantId: Option<string>, clientId: Option<string>, certificate: string)
    | ClientSecretCredential(tenantId: Option<string>, clientId: Option<string>, clientSecret: string)

  /** `ClientCertificates?.Any() ?? false`: a null list counts as empty. */
  predicate HasCertificates(o: IdentityOptions) {
    o.clientCertificates.Some? && |o.clientCertificates.value| > 0
  }

  /**
   `TokenCredentialConversion.FromIdentityOptions` (identical in both packages).
   Null options are rejected; a non-empty certificate list yields a certificate
   credential from its first entry; otherwise a non-null secret (even an empty
   one) yields a secret credential; otherwise the conversion is not implemented.
   Tenant and client id are passed through unchanged.
   */
  function FromIdentityOptions(options: Option<IdentityOptions>): (r: Result<TokenCredential>)
    ensures options.None? ==> r == Failure(ArgumentNull("identityOptions"))
    ensures r.Success? <==> options.Some? && (HasCertificates(options.value) || options.value.clientSecret.Some?)
    ensures options.Some? && r.Failure? ==> r.error == NotImplemented
    ensures r.Success? ==>
      r.value.tenantId == options.value.tenantId && r.value.clientId == options.value.clientId
    ensures r.Success? && r.value.ClientCertificateCredential? <==> options.Some? && HasCertificates(options.value)
    ensures r.Success? && r.value.ClientCertificateCredential? ==>
      r.value.certificate == options.value.clientCertificates.value[0].certificate
    ensures r.Success? && r.value.ClientSecretCredential? ==>
      Some(r.value.clientSecret) == options.value.clientSecret
  {
    match options
    case None => Failure(ArgumentNull("identityOptions"))
    case Some(o) =>
      if HasCertificates(o) then
        Success(ClientCertificateCredential(o.tenantId, o.clientId, o.clientCertificates.value[0].certificate))
      else if o.clientSecret.Some? then
        Success(ClientSecretCredential(o.tenantId, o.clientId, o.clientSecret.value))
      else
        Failure(NotImplemented)
  }

  /**
   The certificate wins whatever secret is configured: changing or removing
   the secret does not change the credential when certificates are present.
   */
  lemma CertificatePreferred(o: IdentityOptions, otherSecret: Option<string>)
    requires HasCertificates(o)
    ensures FromIdentityOptions(Some(o)) == FromIdentityOptions(Some(o.(clientSecret := otherSecret)))
    ensures FromIdentityOptions(Some(o)).Success? && FromIdentityOptions(Some(o)).value.ClientCertificateCredential?
  {
  }

  /**
   `GetCredentialByIdentityOptions`, the inline twin in the older package's
   directory factory: the same decision, but with no null check on the options
   and an invalid-operation error naming the scheme when nothing is configured.
   */
  function GetCredentialByIdentityOptions(o: IdentityOptions, scheme: string): (r: Result<TokenCredential>)
    ensures r.Failure? <==> !HasCertificates(o) && o.clientSecret.None?
    ensures r.Failure? ==> r.error == InvalidOperation(scheme)
    ensures HasCertificates(o) ==>
      r == Success(ClientCertificateCredential(o.tenantId, o.clientId, o.clientCertificates.value[0].certificate))
  {
    if HasCertificates(o) then
      Success(ClientCertificateCredential(o.tenantId, o.clientId, o.clientCertificates.value[0].certificate))
    else if o.clientSecret.None? then
      Failure(InvalidOperation(scheme))
    else
      Success(ClientSecretCredential(o.tenantId, o.clientId, o.clientSecret.value))
  }

  /**
   The two credential decisions agree on every non-null options value: they
   succeed on the same inputs with the same credential, and differ only in the
   kind of error they raise when neither certificate nor secret is configured.
   */
  lemma CredentialDecisionsAgree(o: IdentityOptions, scheme: string)
    ensures FromIdentityOptions(Some(o)).Success? <==> GetCredentialByIdentityOptions(o, scheme).Success?
    ensures FromIdentityOptions(Some(o)).Success? ==>
      FromIdentityOptions(Some(o)) == GetCredentialByIdentityOptions(o, scheme)
    ensures FromIdentityOptions(Some(o)).Failure? ==>
      FromIdentityOptions(Some(o)).error == NotImplemented &&
      GetCredentialByIdentityOptions(o, scheme).error == InvalidOperation(scheme)
  {
  }
}

=== FILE: enrichment.dfy ===
/**
 The enrichment entry points called once a token has been validated: the
 newer package's `GroupsMapper.EnrichPrincipalWithMappedRoles`, which delegates
 to `GroupsMapping`, and the older package's
 `GroupsMapper.AugmentPrincipalWithMappedRoles`, which inlines the same steps.
 Configuration lookups are functions of the scheme; the groups map comes from
 the obtainer, whose factory outcome is supplied by the caller.
 */
module Enrichment {
  import opened Wrappers
  import opened Claims
  import opened GroupsMaps
  import opened Options
  import opened GroupsMapping
  import opened Obtainer

  /** The per-scheme option accessors. */
  datatype Configuration = Configuration(
    identityOptionsFor: string -> IdentityOptions,
    mappingOptionsFor: string -> GroupsMappingOptions)

  /** A request made to a collaborator, with the scheme it was made for. */
  datatype ExternalCall =
    | IdentityOptionsRequested(scheme: string)
    | MappingOptionsRequested(scheme: string)
    | GroupsMapRequested(scheme: string)

  /**
   The effect of one call: the obtainer afterwards, the principal afterwards
   (`None`: no principal was given), the error raised if any, and the requests
   made to collaborators, in order.
   */
  datatype Enriched = Enriched(
    obtainer: ObtainerState,
    principal: Option<Principal>,
    error: Option<Error>,
    calls: seq<ExternalCall>)

  /**
   `EnrichPrincipalWithMappedRoles`. A null or empty scheme is rejected before
   anything else; a null principal is a no-op. Otherwise both option sets and
   the map are requested for the scheme; a failure to obtain the map, or a null
   in the options, propagates with the principal untouched; on success the
   principal becomes `PerformMappingOn(Prepare(...), principal)`.
   */
  function EnrichPrincipalWithMappedRoles(
    config: Configuration, obtainer: ObtainerState, build: Result<GroupsMapDictionary>,
    scheme: Option<string>, principal: Option<Principal>): (r: Enriched)
    ensures IsNullOrEmpty(scheme) ==> r == Enriched(obtainer, principal, Some(Argument("authenticationScheme")), [])
    ensures !IsNullOrEmpty(scheme) && principal.None? ==> r == Enriched(obtainer, None, None, [])
    ensures r.error.Some? ==> r.principal == principal
    ensures !IsNullOrEmpty(scheme) && principal.Some? ==>
      var s := scheme.value;
      var obtained := GetOrCreate(obtainer, scheme, build);
      && r.calls == [IdentityOptionsRequested(s), MappingOptionsRequested(s), GroupsMapRequested(s)]
      && r.obtainer == obtained.state
      && (obtained.result.Failure? ==> r.error == Some(obtained.result.error))
      && (obtained.result.Success? ==>
            var prepared := Prepare(config.identityOptionsFor(s), config.mappingOptionsFor(s), obtained.result.value);
            && (prepared.Failure? ==> r.error == Some(prepared.error))
            && (prepared.Success? ==> r.error.None? && r.principal == Some(PerformMappingOn(prepared.value, principal.value))))
  {
    if IsNullOrEmpty(scheme) then Enriched(obtainer, principal, Some(Argument("authenticationScheme")), [])
    else if principal.None? then Enriched(obtainer, None, None, [])
    else
      var s := scheme.value;
      var identityOptions := config.identityOptionsFor(s);
      var mappingOptions := config.mappingOptionsFor(s);
      var obtained := GetOrCreate(obtainer, scheme, build);
      var calls := [IdentityOptionsRequested(s), MappingOptionsRequested(s), GroupsMapRequested(s)];
      match obtained.result
      case Failure(e) => Enriched(obtained.state, principal, Some(e), calls)
      case Success(groupsMap) =>
        match Prepare(identityOptions, mappingOptions, groupsMap)
        case Failure(e) => Enriched(obtained.state, principal, Some(e), calls)
        case Success(mapping) => Enriched(obtained.state, Some(PerformMappingOn(mapping, principal.value)), None, calls)
  }

  /**
   The inline `GetGroupClaims` of the older package: a null tenant id matches no
   tenant claim and a null token group claim type matches no claim type.
   */
  function OidaGroupClaims(principal: Principal, tenantId: Option<string>, tokenGroupClaimType: Option<string>)
    : (r: seq<Claim>)
    ensures tenantId.None? || tokenGroupClaimType.None? ==> r == []
  {
    if tenantId.Some? && tokenGroupClaimType.Some? then
      GetGroupClaims(principal, tenantId.value, tokenGroupClaimType.value)
    else []
  }

  /**
   The inline `Map` loop of the older package: a null group claim type is only
   noticed when a candidate resolves, as creating that claim raises an
   argument-null error.
   */
  function OidaMapClaims(groupsMap: GroupsMapDictionary, groupClaimType: Option<string>, candidates: seq<Claim>)
    : (r: Result<seq<Claim>>)
    ensures r.Failure? <==>
      groupClaimType.None? && exists k :: 0 <= k < |candidates| && Resolves(groupsMap, candidates[k])
    ensures r.Failure? ==> r.error == ArgumentNull("type")
    ensures groupClaimType.Some? ==> r == Success(MapClaims(groupsMap, groupClaimType.value, candidates))
    ensures groupClaimType.None? && r.Success? ==> r.value == []
  {
    match groupClaimType
    case Some(t) => Success(MapClaims(groupsMap, t, candidates))
    case None =>
      if exists k :: 0 <= k < |candidates| && Resolves(groupsMap, candidates[k]) then Failure(ArgumentNull("type"))
      else Success([])
  }

  /**
   The older package's candidates are exactly the token group claims of the
   eligible sub-identities, and there are none when the tenant id or the token
   group claim type is not configured.
   */
  lemma OidaGroupClaimsMembers(principal: Principal, tenantId: Option<string>, tokenGroupClaimType: Option<string>)
    ensures forall c :: c in OidaGroupClaims(principal, tenantId, tokenGroupClaimType) <==>
      && tenantId.Some? && tokenGroupClaimType.Some?
      && exists i :: 0 <= i < |principal| && IsEligible(principal[i], tenantId.value) &&
           c in principal[i].claims && c.claimType == tokenGroupClaimType.value
  {
    if tenantId.Some? && tokenGroupClaimType.Some? {
      GroupClaimsMembers(principal, tenantId.value, tokenGroupClaimType.value);
    }
  }

  /**
   `AugmentPrincipalWithMappedRoles`. The same validation and no-op; then the
   mapping options are requested, the candidates selected with the identity
   options, and the map requested even when there is no candidate. Misses are
   dropped and one identity of the configured authentication type is appended
   only when something resolved; failures leave the principal untouched.
   */
  function AugmentPrincipalWithMappedRoles(
    config: Configuration, obtainer: ObtainerState, build: Result<GroupsMapDictionary>,
    scheme: Option<string>, principal: Option<Principal>): (r: Enriched)
    ensures IsNullOrEmpty(scheme) ==> r == Enriched(obtainer, principal, Some(Argument("authenticationScheme")), [])
    ensures !IsNullOrEmpty(scheme) && principal.None? ==> r == Enriched(obtainer, None, None, [])
    ensures r.error.Some? ==> r.principal == principal
    ensures !IsNullOrEmpty(scheme) && principal.Some? ==>
      var s := scheme.value;
      var obtained := GetOrCreate(obtainer, scheme, build);
      && r.calls == [MappingOptionsRequested(s), IdentityOptionsRequested(s), GroupsMapRequested(s)]
      && r.obtainer == obtained.state
      && (obtained.result.Failure? ==> r.error == Some(obtained.result.error))
    ensures r.error.None? && r.principal.Some? ==>
      && |principal.value| <= |r.principal.value| <= |principal.value| + 1
      && r.principal.value[..|principal.value|] == principal.value
      && (|r.principal.value| == |principal.value| + 1 ==>
            r.principal.value[|principal.value|].authenticationType == config.mappingOptionsFor(scheme.value).authenticationType &&
            r.principal.value[|principal.value|].claims != [])
    ensures r.error.None? && r.principal.Some? && |r.principal.value| == |principal.value| + 1 ==>
      var mo := config.mappingOptionsFor(scheme.value);
      var groupsMap := GetOrCreate(obtainer, scheme, build).result.value;
      var candidates := OidaGroupClaims(principal.value, config.identityOptionsFor(scheme.value).tenantId, mo.tokenGroupClaimType);
      && mo.groupClaimType.Some?
      && r.principal.value[|principal.value|] == Identity(mo.authenticationType, MapClaims(groupsMap, mo.groupClaimType.value, candidates))
    ensures !IsNullOrEmpty(scheme) && principal.Some? && r.error.None? ==>
      var mo := config.mappingOptionsFor(scheme.value);
      var obtained := GetOrCreate(obtainer, scheme, build);
      var candidates := OidaGroupClaims(principal.value, config.identityOptionsFor(scheme.value).tenantId, mo.tokenGroupClaimType);
      && obtained.result.Success? && r.principal.Some?
      && (|r.principal.value| == |principal.value| + 1 <==>
            mo.groupClaimType.Some? && MapClaims(obtained.result.value, mo.groupClaimType.value, candidates) != [])
  {
    if IsNullOrEmpty(scheme) then Enriched(obtainer, principal, Some(Argument("authenticationScheme")), [])
    else if principal.None? then Enriched(obtainer, None, None, [])
    else
      var s := scheme.value;
      var p := principal.value;
      var mappingOptions := config.mappingOptionsFor(s);
      var identityOptions := config.identityOptionsFor(s);
      var candidates := OidaGroupClaims(p, identityOptions.tenantId, mappingOptions.tokenGroupClaimType);
      var obtained := GetOrCreate(obtainer, scheme, build);
      var calls := [MappingOptionsRequested(s), IdentityOptionsRequested(s), GroupsMapRequested(s)];
      match obtained.result
      case Failure(e) => Enriched(obtained.state, principal, Some(e), calls)
      case Success(groupsMap) =>
        match OidaMapClaims(groupsMap, mappingOptions.groupClaimType, candidates)
        case Failure(e) => Enriched(obtained.state, principal, Some(e), calls)
        case Success(mapped) =>
          var after := if |mapped| > 0 then p + [Identity(mappingOptions.authenticationType, mapped)] else p;
          Enriched(obtained.state, Some(after), None, calls)
  }

  /** A candidate comes from an eligible sub-identity and has the token group claim type. */
  lemma CandidateIsEligibleGroupClaim(principal: Principal, tenantId: string, tokenGroupClaimType: string, k: nat)
    requires k < |GetGroupClaims(principal, tenantId, tokenGroupClaimType)|
    ensures var c := GetGroupClaims(principal, tenantId, tokenGroupClaimType)[k];
      exists i :: 0 <= i < |principal| && IsEligible(principal[i], tenantId) &&
        c in principal[i].claims && c.claimType == tokenGroupClaimType
  {
    GroupClaimsMembers(principal, tenantId, tokenGroupClaimType);
    assert GetGroupClaims(principal, tenantId, tokenGroupClaimType)[k] in GetGroupClaims(principal, tenantId, tokenGroupClaimType);
  }

  /** A token group claim of an eligible sub-identity is a candidate. */
  lemma EligibleGroupClaimIsCandidate(principal: Principal, tenantId: string, tokenGroupClaimType: string, i: nat, c: Claim)
    requires i < |principal| && IsEligible(principal[i], tenantId)
    requires c in principal[i].claims && c.claimType == tokenGroupClaimType
    ensures c in GetGroupClaims(principal, tenantId, tokenGroupClaimType)
  {
    GroupClaimsMembers(principal, tenantId, tokenGroupClaimType);
  }

  /**
   Some candidate of the older package resolves exactly when some token group
   claim of an eligible sub-identity is a known group id.
   */
  lemma ResolvingCandidateExists(
    principal: Principal, tenantId: Option<string>, tokenGroupClaimType: Option<string>, groupsMap: GroupsMapDictionary)
    ensures var candidates := OidaGroupClaims(principal, tenantId, tokenGroupClaimType);
      (exists k :: 0 <= k < |candidates| && Resolves(groupsMap, candidates[k])) <==>
      && tenantId.Some? && tokenGroupClaimType.Some?
      && exists i, c :: 0 <= i < |principal| && IsEligible(principal[i], tenantId.value) &&
           c in principal[i].claims && c.claimType == tokenGroupClaimType.value && Resolves(groupsMap, c)
  {
    if tenantId.Some? && tokenGroupClaimType.Some? {
      var t, g := tenantId.value, tokenGroupClaimType.value;
      assert OidaGroupClaims(principal, tenantId, tokenGroupClaimType) == GetGroupClaims(principal, t, g);
      ResolvingCandidateIsResolvingClaim(principal, t, g, groupsMap);
      ResolvingClaimIsResolvingCandidate(principal, t, g, groupsMap);
    }
  }

  /** A resolving candidate is a resolving token group claim of an eligible sub-identity. */
  lemma ResolvingCandidateIsResolvingClaim(
    principal: Principal, tenantId: string, tokenGroupClaimType: string, groupsMap: GroupsMapDictionary)
    ensures var candidates := GetGroupClaims(principal, tenantId, tokenGroupClaimType);
      (exists k :: 0 <= k < |candidates| && Resolves(groupsMap, candidates[k])) ==>
      (exists i, c :: 0 <= i < |principal| && IsEligible(principal[i], tenantId) &&
         c in principal[i].claims && c.claimType == tokenGroupClaimType && Resolves(groupsMap, c))
  {
    var candidates := GetGroupClaims(principal, tenantId, tokenGroupClaimType);
    if k :| 0 <= k < |candidates| && Resolves(groupsMap, candidates[k]) {
      CandidateIsEligibleGroupClaim(principal, tenantId, tokenGroupClaimType, k);
      var c := candidates[k];
      var i :| 0 <= i < |principal| && IsEligible(principal[i], tenantId) &&
        c in principal[i].claims && c.claimType == tokenGroupClaimType;
    }
  }

  /** A resolving token group claim of an eligible sub-identity is a resolving candidate. */
  lemma ResolvingClaimIsResolvingCandidate(
    principal: Principal, tenantId: string, tokenGroupClaimType: string, groupsMap: GroupsMapDictionary)
    ensures var candidates := GetGroupClaims(principal, tenantId, tokenGroupClaimType);
      (exists i, c :: 0 <= i < |principal| && IsEligible(principal[i], tenantId) &&
         c in principal[i].claims && c.claimType == tokenGroupClaimType && Resolves(groupsMap, c)) ==>
      (exists k :: 0 <= k < |candidates| && Resolves(groupsMap, candidates[k]))
  {
    var candidates := GetGroupClaims(principal, tenantId, tokenGroupClaimType);
    if i, c :| 0 <= i < |principal| && IsEligible(principal[i], tenantId) &&
                c in principal[i].claims && c.claimType == tokenGroupClaimType && Resolves(groupsMap, c) {
      EligibleGroupClaimIsCandidate(principal, tenantId, tokenGroupClaimType, i, c);
      var k :| 0 <= k < |candidates| && candidates[k] == c;
    }
  }

  /**
   With no group claim type configured, the older package fails with an
   argument-null error for the claim's `type` exactly when some token group
   claim of an eligible sub-identity resolves; either way the principal is left
   as it was.
   */
  lemma NullGroupClaimTypeFailsOnHit(
    config: Configuration, obtainer: ObtainerState, build: Result<GroupsMapDictionary>,
    scheme: string, principal: Principal)
    requires scheme != "" && config.mappingOptionsFor(scheme).groupClaimType.None?
    requires GetOrCreate(obtainer, Some(scheme), build).result.Success?
    ensures var groupsMap := GetOrCreate(obtainer, Some(scheme), build).result.value;
      var tenantId := config.identityOptionsFor(scheme).tenantId;
      var tokenGroupClaimType := config.mappingOptionsFor(scheme).tokenGroupClaimType;
      var r := AugmentPrincipalWithMappedRoles(config, obtainer, build, Some(scheme), Some(principal));
      && r.principal == Some(principal)
      && (r.error.Some? <==>
            && tenantId.Some? && tokenGroupClaimType.Some?
            && exists i, c :: 0 <= i < |principal| && IsEligible(principal[i], tenantId.value) &&
                 c in principal[i].claims && c.claimType == tokenGroupClaimType.value && Resolves(groupsMap, c))
      && (r.error.Some? ==> r.error == Some(ArgumentNull("type")))
  {
    var groupsMap := GetOrCreate(obtainer, Some(scheme), build).result.value;
    var tenantId := config.identityOptionsFor(scheme).tenantId;
    var tokenGroupClaimType := config.mappingOptionsFor(scheme).tokenGroupClaimType;
    var candidates := OidaGroupClaims(principal, tenantId, tokenGroupClaimType);
    var mapped := OidaMapClaims(groupsMap, None, candidates);
    var r := AugmentPrincipalWithMappedRoles(config, obtainer, build, Some(scheme), Some(principal));
    assert r.error.Some? <==> mapped.Failure?;
    assert mapped.Success? ==> mapped.value == [];
    ResolvingCandidateExists(principal, tenantId, tokenGroupClaimType, groupsMap);
  }

  /** Every option the newer package's `Prepare` needs is non-null. */
  predicate FullyConfigured(config: Configuration, scheme: string) {
    && config.identityOptionsFor(scheme).tenantId.Some?
    && config.mappingOptionsFor(scheme).tokenGroupClaimType.Some?
    && config.mappingOptionsFor(scheme).groupClaimType.Some?
    && config.mappingOptionsFor(scheme).authenticationType.Some?
  }

  /**
   With every option configured, the two packages' entry points have the same
   effect on the principal, the obtainer and the error; they make the same
   requests, only in a different order.
   */
  lemma VariantsAgree(
    config: Configuration, obtainer: ObtainerState, build: Result<GroupsMapDictionary>,
    scheme: Option<string>, principal: Option<Principal>)
    requires !IsNullOrEmpty(scheme) ==> FullyConfigured(config, scheme.value)
    ensures var a := EnrichPrincipalWithMappedRoles(config, obtainer, build, scheme, principal);
      var b := AugmentPrincipalWithMappedRoles(config, obtainer, build, scheme, principal);
      a.obtainer == b.obtainer && a.principal == b.principal && a.error == b.error &&
      multiset(a.calls) == multiset(b.calls)
  {
    if !IsNullOrEmpty(scheme) && principal.Some? {
      var s := scheme.value;
      var obtained := GetOrCreate(obtainer, scheme, build);
      if obtained.result.Success? {
        var groupsMap := obtained.result.value;
        var mapping := Prepare(config.identityOptionsFor(s), config.mappingOptionsFor(s), groupsMap).value;
        var mapped := MappedClaims(mapping, principal.value);
        assert OidaMapClaims(groupsMap, config.mappingOptionsFor(s).groupClaimType,
          OidaGroupClaims(principal.value, config.identityOptionsFor(s).tenantId, config.mappingOptionsFor(s).tokenGroupClaimType))
          == Success(mapped);
      }
    }
  }

  /**
   The packages differ when the tenant id is not configured: the newer one
   raises an argument-null error for it once the map is obtained, the older one
   selects no candidate and leaves the principal as it was.
   */
  lemma NullTenantDiverges(
    config: Configuration, obtainer: ObtainerState, groupsMap: GroupsMapDictionary,
    scheme: string, principal: Principal)
    requires scheme != "" && config.identityOptionsFor(scheme).tenantId.None?
    ensures EnrichPrincipalWithMappedRoles(config, obtainer, Success(groupsMap), Some(scheme), Some(principal)).error
      == Some(ArgumentNull("tenantId"))
    ensures AugmentPrincipalWithMappedRoles(config, obtainer, Success(groupsMap), Some(scheme), Some(principal)).error.None?
    ensures AugmentPrincipalWithMappedRoles(config, obtainer, Success(groupsMap), Some(scheme), Some(principal)).principal
      == Some(principal)
  {
  }

  /**
   The newer package's scenario: a tenant claim matching the configured tenant
   plus one resolvable group claim yields exactly one identity of the
   configured authentication type, and the map is built once for the scheme.
   */
  lemma EnrichScenario()
    ensures
      var config := Configuration(
        s => IdentityOptions(Some("tenant1234"), None, None, None),
        s => GroupsMappingOptions(Some("tokenclaimtype"), Some("authenticationtype"), Some("groupclaimtype")));
      var identity := Identity(None, [Claim(TenantIdClaimType, "tenant1234", StringValueType),
                                      Claim("tokenclaimtype", "Id1234", StringValueType)]);
      var build := Success(GroupsMapDictionary(map["Id1234" := "FakeGroupName"]));
      var r := EnrichPrincipalWithMappedRoles(config, Initial, build, Some("Test"), Some([identity]));
      && r.error.None?
      && r.principal == Some([identity, Identity(Some("authenticationtype"),
                                                 [Claim("groupclaimtype", "FakeGroupName", StringValueType)])])
      && CallsFor(r.obtainer, "Test") == 1
  {
    var tenantClaim := Claim(TenantIdClaimType, "tenant1234", StringValueType);
    var groupClaim := Claim("tokenclaimtype", "Id1234", StringValueType);
    var identity := Identity(None, [tenantClaim, groupClaim]);
    var groupsMap := GroupsMapDictionary(map["Id1234" := "FakeGroupName"]);
    var mapping := Mapping("tenant1234", "tokenclaimtype", "groupclaimtype", "authenticationtype", groupsMap);
    assert FindFirst(identity.claims, TenantIdClaimType) == Some(tenantClaim);
    assert |TenantIdClaimType| != |"tokenclaimtype"|;
    assert identity.claims[1..] == [groupClaim];
    assert [groupClaim][1..] == [];
    assert ClaimsOfType(identity.claims, "tokenclaimtype") == ClaimsOfType([groupClaim], "tokenclaimtype") == [groupClaim];
    assert [identity][1..] == [];
    assert GetGroupClaims([identity], "tenant1234", "tokenclaimtype") == [groupClaim];
    assert MapClaims(groupsMap, "groupclaimtype", [groupClaim]) == [MappedClaim("groupclaimtype", "FakeGroupName")];
    assert PerformMappingOn(mapping, [identity]) ==
      [identity, Identity(Some("authenticationtype"), [Claim("groupclaimtype", "FakeGroupName", StringValueType)])];
  }
}

=== FILE: graph_factory.dfy ===
/**
 The directory-backed map factory (`GraphGroupsMapFactory`, both packages).
 The paged directory query is abstracted as a function from the credential to
 either the complete, ordered list of `(id, displayName)` groups or a failure.
 */
module GraphFactory {
  import opened Wrappers
  import opened Options
  import opened Credentials
  import opened GroupsMaps

  /** A group as the directory lists it: `(id, displayName)`. */
  type Group = (string, string)

  /** The directory query for one credential: all pages in order, or the failure it reported. */
  type Directory = TokenCredential -> Result<seq<Group>>

  /** The ids occurring in a group listing. */
  function IdsOf(groups: seq<Group>): set<string> {
    set i | 0 <= i < |groups| :: groups[i].0
  }

  /** Position `i` is the first occurrence of its id in the listing. */
  predicate IsFirstOccurrence(groups: seq<Group>, i: int)
    requires 0 <= i < |groups|
  {
    forall j :: 0 <= j < i ==> groups[j].0 != groups[i].0
  }

  /**
   The fold over all pages into a dictionary with `GetOrAdd`: its keys are
   exactly the ids seen, and a duplicated id keeps the display name of its
   first occurrence.
   */
  method Accumulate(groups: seq<Group>) returns (acc: map<string, string>)
    ensures acc.Keys == IdsOf(groups)
    ensures forall i :: 0 <= i < |groups| && IsFirstOccurrence(groups, i) ==> acc[groups[i].0] == groups[i].1
  {
    acc := map[];
    var n := 0;
    while n < |groups|
      invariant 0 <= n <= |groups|
      invariant acc.Keys == IdsOf(groups[..n])
      invariant forall i :: 0 <= i < n && IsFirstOccurrence(groups, i) ==> acc[groups[i].0] == groups[i].1
    {
      var (id, name) := groups[n];
      if id !in acc {
        acc := acc[id := name];
      }
      assert groups[..n + 1] == groups[..n] + [groups[n]];
      n := n + 1;
    }
    assert groups[..n] == groups;
  }

  /**
   `Create` of the newer package: a null or empty scheme is rejected before any
   credential is built; the credential comes from the scheme's identity options
   through `FromIdentityOptions`, whose failures carry over; a directory failure
   propagates; otherwise the result is a map copy of the accumulated groups.
   */
  method Create(scheme: Option<string>, identityOptionsFor: string -> IdentityOptions, directory: Directory)
    returns (r: Result<GroupsMapDictionary>)
    ensures IsNullOrEmpty(scheme) ==> r == Failure(Argument("authenticationScheme"))
    ensures !IsNullOrEmpty(scheme) && FromIdentityOptions(Some(identityOptionsFor(scheme.value))).Failure? ==>
      r == Failure(FromIdentityOptions(Some(identityOptionsFor(scheme.value))).error)
    ensures !IsNullOrEmpty(scheme) && FromIdentityOptions(Some(identityOptionsFor(scheme.value))).Success? ==>
      var listing := directory(FromIdentityOptions(Some(identityOptionsFor(scheme.value))).value);
      (listing.Failure? ==> r == Failure(listing.error)) &&
      (listing.Success? ==> r.Success? && Built(listing.value, r.value))
  {
    if IsNullOrEmpty(scheme) {
      return Failure(Argument("authenticationScheme"));
    }
    var credential := FromIdentityOptions(Some(identityOptionsFor(scheme.value)));
    if credential.Failure? {
      return Failure(credential.error);
    }
    r := FromListing(directory(credential.value));
  }

  /**
   `Create` of the older package: the same, but the credential comes from the
   inline `GetCredentialByIdentityOptions`, so a missing credential is an
   invalid-operation error naming the scheme.
   */
  method CreateOidaAuth(scheme: Option<string>, identityOptionsFor: string -> IdentityOptions, directory: Directory)
    returns (r: Result<GroupsMapDictionary>)
    ensures IsNullOrEmpty(scheme) ==> r == Failure(Argument("authenticationScheme"))
    ensures !IsNullOrEmpty(scheme) && GetCredentialByIdentityOptions(identityOptionsFor(scheme.value), scheme.value).Failure? ==>
      r == Failure(InvalidOperation(scheme.value))
    ensures !IsNullOrEmpty(scheme) && GetCredentialByIdentityOptions(identityOptionsFor(scheme.value), scheme.value).Success? ==>
      var listing := directory(GetCredentialByIdentityOptions(identityOptionsFor(scheme.value), scheme.value).value);
      (listing.Failure? ==> r == Failure(listing.error)) &&
      (listing.Success? ==> r.Success? && Built(listing.value, r.value))
  {
    if IsNullOrEmpty(scheme) {
      return Failure(Argument("authenticationScheme"));
    }
    var credential := GetCredentialByIdentityOptions(identityOptionsFor(scheme.value), scheme.value);
    if credential.Failure? {
      return Failure(credential.error);
    }
    r := FromListing(directory(credential.value));
  }

  /** `m` holds exactly the listed ids, each with the display name of its first occurrence. */
  ghost predicate Built(groups: seq<Group>, m: GroupsMapDictionary) {
    && m.entries.Keys == IdsOf(groups)
    && forall i :: 0 <= i < |groups| && IsFirstOccurrence(groups, i) ==> m.entries[groups[i].0] == groups[i].1
  }

  /** Accumulate a successful listing and copy it into a `GroupsMapDictionary`. */
  method FromListing(listing: Result<seq<Group>>) returns (r: Result<GroupsMapDictionary>)
    ensures listing.Failure? ==> r == Failure(listing.error)
    ensures listing.Success? ==> r.Success? && Built(listing.value, r.value)
  {
    if listing.Failure? {
      return Failure(listing.error);
    }
    var acc := Accumulate(listing.value);
    r := FromSource(Some(acc));
    assert r.value.entries == acc;
  }
}

=== FILE: groups_map.dfy ===
/**
 The group-id to display-name lookup (`IGroupsMap`) and its only production
 implementation, `GroupsMapDictionary`: an immutable snapshot of the entries
 it was constructed from.
 */
module GroupsMaps {
  import opened Wrappers

  /** A snapshot of `groupId -> displayName` entries. */
  datatype GroupsMapDictionary = GroupsMapDictionary(entries: map<string, string>)

  /** What `TryGetValue` reports: whether the id was found, and the out value (`None` models null). */
  datatype TryGetOutcome = TryGetOutcome(found: bool, displayName: Option<string>)

  /**
   The copying constructor: a null source is rejected, otherwise the map holds
   exactly the source's entries as they were at construction.
   */
  function FromSource(source: Option<map<string, string>>): (r: Result<GroupsMapDictionary>)
    ensures source.None? <==> r.Failure?
    ensures r.Failure? ==> r.error == ArgumentNull("backingDictionary")
    ensures r.Success? ==>
      (forall id :: id in r.value.entries <==> id in source.value) &&
      (forall id :: id in source.value ==> r.value.entries[id] == source.value[id])
  {
    match source
    case None => Failure(ArgumentNull("backingDictionary"))
    case Some(src) => Success(GroupsMapDictionary(map id | id in src :: src[id]))
  }

  /** The lookup every consumer of the map performs, for a non-null id. */
  function Lookup(m: GroupsMapDictionary, groupId: string): Option<string> {
    if groupId in m.entries then Some(m.entries[groupId]) else None
  }

  /**
   `IGroupsMap.TryGetValue`: a null id is rejected; otherwise the result is true
   exactly when the id is present, the out value is its display name when true
   and null when false.
   */
  function TryGetValue(m: GroupsMapDictionary, groupId: Option<string>): (r: Result<TryGetOutcome>)
    ensures groupId.None? <==> r.Failure?
    ensures r.Failure? ==> r.error == ArgumentNull("key")
    ensures r.Success? ==> (r.value.found <==> groupId.value in m.entries)
    ensures r.Success? && r.value.found ==> r.value.displayName == Some(m.entries[groupId.value])
    ensures r.Success? && !r.value.found ==> r.value.displayName.None?
  {
    match groupId
    case None => Failure(ArgumentNull("key"))
    case Some(id) =>
      var name := Lookup(m, id);
      Success(TryGetOutcome(name.Some?, name))
  }

  /** The indexer: the stored value for a present key, `KeyNotFound` for an absent one. */
  function Item(m: GroupsMapDictionary, key: Option<string>): (r: Result<string>)
    ensures key.None? ==> r == Failure(ArgumentNull("key"))
    ensures key.Some? && key.value in m.entries ==> r == Success(m.entries[key.value])
    ensures key.Some? && key.value !in m.entries ==> r == Failure(KeyNotFound(key.value))
  {
    match key
    case None => Failure(ArgumentNull("key"))
    case Some(k) =>
      match Lookup(m, k)
      case Some(name) => Success(name)
      case None => Failure(KeyNotFound(k))
  }

  /** `ContainsKey`: agrees with a successful `TryGetValue`. */
  function ContainsKey(m: GroupsMapDictionary, key: Option<string>): (r: Result<bool>)
    ensures key.None? <==> r.Failure?
    ensures r.Success? ==> r.value == TryGetValue(m, key).value.found
  {
    match key
    case None => Failure(ArgumentNull("key"))
    case Some(k) => Success(k in m.entries)
  }

  /** `Keys`: exactly the ids that `TryGetValue` finds. */
  function Keys(m: GroupsMapDictionary): (r: set<string>)
    ensures forall id :: id in r <==> TryGetValue(m, Some(id)).value.found
  {
    m.entries.Keys
  }

  /** `Values`: exactly the display names the indexer returns for some id. */
  function Values(m: GroupsMapDictionary): (r: set<string>)
    ensures forall name :: name in r <==> exists id :: Item(m, Some(id)) == Success(name)
  {
    assert forall id :: id in m.entries ==> Item(m, Some(id)) == Success(m.entries[id]);
    set id | id in m.entries :: m.entries[id]
  }

  /** `Count`: one per id. */
  function Count(m: GroupsMapDictionary): (r: nat)
    ensures r == |Keys(m)|
  {
    |m.entries|
  }

  /**
   A map built from a source behaves like that source: same keys, same values,
   same count, and every key resolves through `TryGetValue`, `ContainsKey` and
   the indexer to the source's value.
   */
  lemma SnapshotBehavesLikeSource(source: map<string, string>, id: string)
    ensures FromSource(Some(source)).Success?
    ensures Keys(FromSource(Some(source)).value) == source.Keys
    ensures Values(FromSource(Some(source)).value) == source.Values
    ensures Count(FromSource(Some(source)).value) == |source|
    ensures TryGetValue(FromSource(Some(source)).value, Some(id)).value.found <==> id in source
    ensures ContainsKey(FromSource(Some(source)).value, Some(id)) == Success(id in source)
    ensures id in source ==> Item(FromSource(Some(source)).value, Some(id)) == Success(source[id])
  {
    var m := FromSource(Some(source)).value;
    assert m.entries == source;
  }

  /**
   Entries are copied at construction. A map built before the source's entry
   for `id` is replaced keeps answering with the old display name, one built
   afterwards answers with the new one, and the two agree on every other key.
   */
  lemma SnapshotIgnoresLaterChanges(source: map<string, string>, id: string, altered: string, key: string)
    requires id in source
    ensures var before := FromSource(Some(source)).value;
      var after := FromSource(Some(source[id := altered])).value;
      && Item(before, Some(id)) == Success(source[id])
      && Item(after, Some(id)) == Success(altered)
      && (altered != source[id] ==> Item(before, Some(id)) != Item(after, Some(id)))
      && (key != id ==> Item(before, Some(key)) == Item(after, Some(key)))
  {
  }
}

=== FILE: groups_mapping.dfy ===
/**
 The claim transformation of the newer package (`GroupsMapping`): select the
 group claims of the sub-identities issued by the configured tenant, resolve
 them through the groups map, and append one identity holding the resolved
 display names.
 */
module GroupsMapping {
  import opened Wrappers
  import opened Claims
  import opened GroupsMaps
  import opened Options

  /** A configured mapping; every field is non-null once constructed. */
  datatype Mapping = Mapping(
    tenantId: string,
    tokenGroupClaimType: string,
    groupClaimType: string,
    authenticationType: string,
    groupsMap: GroupsMapDictionary)

  /**
   The constructor: the first null argument, in declaration order, raises an
   argument-null error naming it; otherwise the mapping holds the arguments.
   */
  function New(
    tenantId: Option<string>,
    tokenGroupClaimType: Option<string>,
    groupClaimType: Option<string>,
    authenticationType: Option<string>,
    groupsMap: Option<GroupsMapDictionary>): (r: Result<Mapping>)
    ensures r.Success? <==>
      tenantId.Some? && tokenGroupClaimType.Some? && groupClaimType.Some? && authenticationType.Some? && groupsMap.Some?
    ensures tenantId.None? ==> r == Failure(ArgumentNull("tenantId"))
    ensures tenantId.Some? && tokenGroupClaimType.None? ==> r == Failure(ArgumentNull("tokenGroupClaimType"))
    ensures tenantId.Some? && tokenGroupClaimType.Some? && groupClaimType.None? ==>
      r == Failure(ArgumentNull("groupClaimType"))
    ensures tenantId.Some? && tokenGroupClaimType.Some? && groupClaimType.Some? && authenticationType.None? ==>
      r == Failure(ArgumentNull("authenticationType"))
    ensures r.Failure? && tenantId.Some? && tokenGroupClaimType.Some? && groupClaimType.Some? && authenticationType.Some? ==>
      r.error == ArgumentNull("groupsMap")
    ensures r.Success? ==>
      && r.value.tenantId == tenantId.value
      && r.value.tokenGroupClaimType == tokenGroupClaimType.value
      && r.value.groupClaimType == groupClaimType.value
      && r.value.authenticationType == authenticationType.value
      && r.value.groupsMap == groupsMap.value
  {
    if tenantId.None? then Failure(ArgumentNull("tenantId"))
    else if tokenGroupClaimType.None? then Failure(ArgumentNull("tokenGroupClaimType"))
    else if groupClaimType.None? then Failure(ArgumentNull("groupClaimType"))
    else if authenticationType.None? then Failure(ArgumentNull("authenticationType"))
    else if groupsMap.None? then Failure(ArgumentNull("groupsMap"))
    else Success(Mapping(tenantId.value, tokenGroupClaimType.value, groupClaimType.value,
                         authenticationType.value, groupsMap.value))
  }

  /**
   `Prepare`: the tenant id comes from the identity options, the three claim
   and authentication types from the mapping options.
   */
  function Prepare(identityOptions: IdentityOptions, mappingOptions: GroupsMappingOptions, groupsMap: GroupsMapDictionary)
    : (r: Result<Mapping>)
    ensures r.Success? <==>
      identityOptions.tenantId.Some? && mappingOptions.tokenGroupClaimType.Some? &&
      mappingOptions.groupClaimType.Some? && mappingOptions.authenticationType.Some?
    ensures identityOptions.tenantId.None? ==> r == Failure(ArgumentNull("tenantId"))
    ensures r.Success? ==>
      && Some(r.value.tenantId) == identityOptions.tenantId
      && Some(r.value.tokenGroupClaimType) == mappingOptions.tokenGroupClaimType
      && Some(r.value.groupClaimType) == mappingOptions.groupClaimType
      && Some(r.value.authenticationType) == mappingOptions.authenticationType
      && r.value.groupsMap == groupsMap
  {
    New(identityOptions.tenantId, mappingOptions.tokenGroupClaimType, mappingOptions.groupClaimType,
        mappingOptions.authenticationType, Some(groupsMap))
  }

  /** A sub-identity is eligible when its first tenant-id claim exists and carries the tenant id. */
  predicate IsEligible(identity: Identity, tenantId: string)
    ensures IsEligible(identity, tenantId) ==>
      exists i :: 0 <= i < |identity.claims| &&
        identity.claims[i].claimType == TenantIdClaimType && identity.claims[i].value == tenantId
  {
    var tenantClaim := FindFirst(identity.claims, TenantIdClaimType);
    tenantClaim.Some? && tenantClaim.value.value == tenantId
  }

  /** The claims of the given type, in order; the type comparison is exact. */
  function ClaimsOfType(claims: seq<Claim>, claimType: string): (r: seq<Claim>)
    ensures |r| <= |claims|
    ensures forall i :: 0 <= i < |r| ==> r[i].claimType == claimType
  {
    if |claims| == 0 then []
    else if claims[0].claimType == claimType then [claims[0]] + ClaimsOfType(claims[1..], claimType)
    else ClaimsOfType(claims[1..], claimType)
  }

  /** `GetGroupClaims`: identity by identity, the token group claims of every eligible sub-identity. */
  function GetGroupClaims(principal: Principal, tenantId: string, tokenGroupClaimType: string): (r: seq<Claim>)
    ensures forall i :: 0 <= i < |r| ==> r[i].claimType == tokenGroupClaimType
  {
    if |principal| == 0 then []
    else
      (if IsEligible(principal[0], tenantId) then ClaimsOfType(principal[0].claims, tokenGroupClaimType) else [])
      + GetGroupClaims(principal[1..], tenantId, tokenGroupClaimType)
  }

  /** Exactly the claims of the requested type are selected. */
  lemma {:induction false} ClaimsOfTypeMembers(claims: seq<Claim>, claimType: string)
    ensures |ClaimsOfType(claims, claimType)| <= |claims|
    ensures forall c :: c in ClaimsOfType(claims, claimType) <==> c in claims && c.claimType == claimType
  {
    if |claims| > 0 {
      ClaimsOfTypeMembers(claims[1..], claimType);
      assert forall c :: c in claims <==> c == claims[0] || c in claims[1..];
    }
  }

  /**
   Selection distributes over concatenation, so it keeps the claims' order and
   their duplicates: two equal claims of the type are both selected.
   */
  lemma {:induction false} ClaimsOfTypeAppend(a: seq<Claim>, b: seq<Claim>, claimType: string)
    ensures ClaimsOfType(a + b, claimType) == ClaimsOfType(a, claimType) + ClaimsOfType(b, claimType)
  {
    if |a| > 0 {
      assert (a + b)[1..] == a[1..] + b;
      ClaimsOfTypeAppend(a[1..], b, claimType);
    } else {
      assert a + b == b;
    }
  }

  /**
   The candidates are exactly the token group claims of the eligible
   sub-identities; an ineligible sub-identity contributes none of its claims.
   */
  lemma {:induction false} GroupClaimsMembers(principal: Principal, tenantId: string, tokenGroupClaimType: string)
    ensures forall c :: c in GetGroupClaims(principal, tenantId, tokenGroupClaimType) <==>
      exists i :: 0 <= i < |principal| && IsEligible(principal[i], tenantId) &&
        c in principal[i].claims && c.claimType == tokenGroupClaimType
  {
    if |principal| > 0 {
      GroupClaimsMembers(principal[1..], tenantId, tokenGroupClaimType);
      ClaimsOfTypeMembers(principal[0].claims, tokenGroupClaimType);
      assert forall i :: 1 <= i < |principal| ==> principal[i] == principal[1..][i - 1];
      forall c | c in GetGroupClaims(principal, tenantId, tokenGroupClaimType)
        ensures (exists i :: 0 <= i < |principal| && IsEligible(principal[i], tenantId) &&
                             c in principal[i].claims && c.claimType == tokenGroupClaimType)
      {
        if c !in GetGroupClaims(principal[1..], tenantId, tokenGroupClaimType) {
          assert IsEligible(principal[0], tenantId) && c in ClaimsOfType(principal[0].claims, tokenGroupClaimType);
        }
      }
      forall c, i | 0 <= i < |principal| && IsEligible(principal[i], tenantId) &&
          c in principal[i].claims && c.claimType == tokenGroupClaimType
        ensures c in GetGroupClaims(principal, tenantId, tokenGroupClaimType)
      {
        if i > 0 {
          assert principal[1..][i - 1] == principal[i];
        }
      }
    }
  }

  /** The claim a resolved group becomes. */
  function MappedClaim(groupClaimType: string, displayName: string): Claim {
    Claim(groupClaimType, displayName, StringValueType)
  }

  /** A candidate claim resolves when its value is a known group id. */
  predicate Resolves(groupsMap: GroupsMapDictionary, claim: Claim) {
    claim.value in groupsMap.entries
  }

  /**
   `Map` over all candidates, in order: each resolving candidate becomes a claim
   of the group claim type whose value is the display name, each miss is dropped.
   */
  function MapClaims(groupsMap: GroupsMapDictionary, groupClaimType: string, candidates: seq<Claim>): (r: seq<Claim>)
    ensures |r| <= |candidates|
    ensures forall i :: 0 <= i < |r| ==> r[i].claimType == groupClaimType && r[i].valueType == StringValueType
  {
    if |candidates| == 0 then []
    else
      match Lookup(groupsMap, candidates[0].value)
      case Some(name) => [MappedClaim(groupClaimType, name)] + MapClaims(groupsMap, groupClaimType, candidates[1..])
      case None => MapClaims(groupsMap, groupClaimType, candidates[1..])
  }

  /**
   The mapped claims are exactly the images of the resolving candidates; none
   exist precisely when no candidate resolves.
   */
  lemma {:induction false} MapClaimsMembers(groupsMap: GroupsMapDictionary, groupClaimType: string, candidates: seq<Claim>)
    ensures MapClaims(groupsMap, groupClaimType, candidates) == [] <==>
      forall k :: 0 <= k < |candidates| ==> !Resolves(groupsMap, candidates[k])
    ensures forall c :: c in MapClaims(groupsMap, groupClaimType, candidates) <==>
      exists k :: 0 <= k < |candidates| && Resolves(groupsMap, candidates[k]) &&
        c == MappedClaim(groupClaimType, groupsMap.entries[candidates[k].value])
  {
    if |candidates| > 0 {
      MapClaimsMembers(groupsMap, groupClaimType, candidates[1..]);
      assert forall k :: 1 <= k < |candidates| ==> candidates[k] == candidates[1..][k - 1];
      var r := MapClaims(groupsMap, groupClaimType, candidates);
      forall c | c in r
        ensures (exists k :: 0 <= k < |candidates| && Resolves(groupsMap, candidates[k]) &&
                             c == MappedClaim(groupClaimType, groupsMap.entries[candidates[k].value]))
      {
        if c !in MapClaims(groupsMap, groupClaimType, candidates[1..]) {
          assert Resolves(groupsMap, candidates[0]);
        }
      }
      forall c, k | 0 <= k < |candidates| && Resolves(groupsMap, candidates[k]) &&
          c == MappedClaim(groupClaimType, groupsMap.entries[candidates[k].value])
        ensures c in r
      {
        if k > 0 {
          assert candidates[1..][k - 1] == candidates[k];
        }
      }
    }
  }

  /** The claims the mapping produces for a principal. */
  function MappedClaims(m: Mapping, principal: Principal): seq<Claim> {
    MapClaims(m.groupsMap, m.groupClaimType, GetGroupClaims(principal, m.tenantId, m.tokenGroupClaimType))
  }

  /**
   `PerformMappingOn`: the principal after the mapping. Its existing identities
   are untouched; exactly one identity of the configured authentication type,
   holding exactly the mapped claims, is appended when at least one claim
   resolved, and nothing changes otherwise.
   */
  function PerformMappingOn(m: Mapping, principal: Principal): (r: Principal)
    ensures |principal| <= |r|
    ensures r[..|principal|] == principal
    ensures |r| == |principal| <==> MappedClaims(m, principal) == []
    ensures |r| == |principal| + 1 <==> MappedClaims(m, principal) != []
    ensures |r| == |principal| + 1 ==>
      r[|principal|] == Identity(Some(m.authenticationType), MappedClaims(m, principal))
  {
    var mapped := MappedClaims(m, principal);
    if |mapped| > 0 then principal + [Identity(Some(m.authenticationType), mapped)] else principal
  }

  /** Candidates are selected identity by identity: selection distributes over concatenation. */
  lemma {:induction false} GroupClaimsAppend(p: Principal, q: Principal, tenantId: string, tokenGroupClaimType: string)
    ensures GetGroupClaims(p + q, tenantId, tokenGroupClaimType) ==
      GetGroupClaims(p, tenantId, tokenGroupClaimType) + GetGroupClaims(q, tenantId, tokenGroupClaimType)
  {
    if |p| == 0 {
      assert p + q == q;
    } else {
      assert (p + q)[1..] == p[1..] + q;
      assert (p + q)[0] == p[0];
      GroupClaimsAppend(p[1..], q, tenantId, tokenGroupClaimType);
    }
  }

  /** Mapping distributes over concatenation of the candidates, so the mapped claims keep their order. */
  lemma {:induction false} MapClaimsAppend(groupsMap: GroupsMapDictionary, groupClaimType: string, a: seq<Claim>, b: seq<Claim>)
    ensures MapClaims(groupsMap, groupClaimType, a + b) ==
      MapClaims(groupsMap, groupClaimType, a) + MapClaims(groupsMap, groupClaimType, b)
  {
    if |a| == 0 {
      assert a + b == b;
    } else {
      assert (a + b)[1..] == a[1..] + b;
      assert (a + b)[0] == a[0];
      MapClaimsAppend(groupsMap, groupClaimType, a[1..], b);
    }
  }

  /** A lone eligible sub-identity contributes exactly its token group claims, in order. */
  lemma EligibleSingleton(x: Identity, tenantId: string, tokenGroupClaimType: string)
    requires IsEligible(x, tenantId)
    ensures GetGroupClaims([x], tenantId, tokenGroupClaimType) == ClaimsOfType(x.claims, tokenGroupClaimType)
  {
    assert [x][1..] == [];
  }

  /**
   The sub-identity is eligible exactly when its first tenant-id claim carries
   the tenant id.
   */
  lemma EligibleIffFirstTenantClaimMatches(identity: Identity, tenantId: string)
    ensures IsEligible(identity, tenantId) <==>
      exists i :: 0 <= i < |identity.claims| &&
        identity.claims[i].claimType == TenantIdClaimType && identity.claims[i].value == tenantId &&
        forall j :: 0 <= j < i ==> identity.claims[j].claimType != TenantIdClaimType
  {
    var claims := identity.claims;
    var first := FindFirst(claims, TenantIdClaimType);
    if i :| 0 <= i < |claims| && claims[i].claimType == TenantIdClaimType && claims[i].value == tenantId &&
           (forall j :: 0 <= j < i ==> claims[j].claimType != TenantIdClaimType) {
      var i' :| 0 <= i' < |claims| && claims[i'] == first.value && first.value.claimType == TenantIdClaimType &&
        forall j :: 0 <= j < i' ==> claims[j].claimType != TenantIdClaimType;
      assert i' == i;
    }
  }

  /** A single ineligible sub-identity yields no candidate. */
  lemma IneligibleSingletonSelectsNothing(x: Identity, tenantId: string, tokenGroupClaimType: string)
    requires !IsEligible(x, tenantId)
    ensures GetGroupClaims([x], tenantId, tokenGroupClaimType) == []
  {
    assert [x][1..] == [];
  }

  /**
   A sub-identity whose first tenant claim is missing or names another tenant
   contributes no candidate, even when another sub-identity is eligible.
   */
  lemma IneligibleIdentityContributesNothing(p: Principal, i: nat, tenantId: string, tokenGroupClaimType: string)
    requires i < |p| && !IsEligible(p[i], tenantId)
    ensures GetGroupClaims(p, tenantId, tokenGroupClaimType) ==
      GetGroupClaims(p[..i] + p[i + 1..], tenantId, tokenGroupClaimType)
  {
    var before, x, after := p[..i], p[i], p[i + 1..];
    assert p == (before + [x]) + after;
    GroupClaimsAppend(before + [x], after, tenantId, tokenGroupClaimType);
    GroupClaimsAppend(before, [x], tenantId, tokenGroupClaimType);
    IneligibleSingletonSelectsNothing(x, tenantId, tokenGroupClaimType);
    GroupClaimsAppend(before, after, tenantId, tokenGroupClaimType);
  }

  /** Without an eligible sub-identity there is no candidate at all. */
  lemma {:induction false} NoEligibleIdentityNoCandidates(p: Principal, tenantId: string, tokenGroupClaimType: string)
    requires forall i :: 0 <= i < |p| ==> !IsEligible(p[i], tenantId)
    ensures GetGroupClaims(p, tenantId, tokenGroupClaimType) == []
  {
    if |p| > 0 {
      assert forall i :: 1 <= i < |p| ==> p[1..][i - 1] == p[i];
      NoEligibleIdentityNoCandidates(p[1..], tenantId, tokenGroupClaimType);
    }
  }

  /**
   When no sub-identity is issued by the configured tenant, the principal is
   unchanged, whatever group claims it carries.
   */
  lemma NoEligibleIdentityNoChange(m: Mapping, p: Principal)
    requires forall i :: 0 <= i < |p| ==> !IsEligible(p[i], m.tenantId)
    ensures PerformMappingOn(m, p) == p
  {
    NoEligibleIdentityNoCandidates(p, m.tenantId, m.tokenGroupClaimType);
  }

  /** When every candidate misses the map, the principal is unchanged. */
  lemma UnresolvedCandidatesNoChange(m: Mapping, p: Principal)
    requires forall c :: c in GetGroupClaims(p, m.tenantId, m.tokenGroupClaimType) ==> c.value !in m.groupsMap.entries
    ensures PerformMappingOn(m, p) == p
  {
    var candidates := GetGroupClaims(p, m.tenantId, m.tokenGroupClaimType);
    MapClaimsMembers(m.groupsMap, m.groupClaimType, candidates);
    assert forall k :: 0 <= k < |candidates| ==> candidates[k] in candidates;
  }

  /**
   Every mapped claim is a string claim of the group claim type whose value is
   the display name of some known group.
   */
  lemma MappedClaimsAreGroupClaims(m: Mapping, p: Principal)
    ensures forall d :: d in MappedClaims(m, p) ==>
      d.claimType == m.groupClaimType && d.valueType == StringValueType && d.value in m.groupsMap.entries.Values
  {
    var candidates := GetGroupClaims(p, m.tenantId, m.tokenGroupClaimType);
    MapClaimsMembers(m.groupsMap, m.groupClaimType, candidates);
  }

  /**
   A token group claim of an eligible sub-identity whose id is known makes the
   mapping append an identity, and its display name is among that identity's claims.
   */
  lemma ResolvedCandidateIsMapped(m: Mapping, p: Principal, i: nat, c: Claim)
    requires i < |p| && IsEligible(p[i], m.tenantId)
    requires c in p[i].claims && c.claimType == m.tokenGroupClaimType && c.value in m.groupsMap.entries
    ensures |PerformMappingOn(m, p)| == |p| + 1
    ensures MappedClaim(m.groupClaimType, m.groupsMap.entries[c.value]) in PerformMappingOn(m, p)[|p|].claims
  {
    GroupClaimsMembers(p, m.tenantId, m.tokenGroupClaimType);
    var candidates := GetGroupClaims(p, m.tenantId, m.tokenGroupClaimType);
    assert c in candidates;
    var k :| 0 <= k < |candidates| && candidates[k] == c;
    MapClaimsMembers(m.groupsMap, m.groupClaimType, candidates);
    assert MappedClaim(m.groupClaimType, m.groupsMap.entries[c.value]) in MappedClaims(m, p);
  }

  /**
   Enrichment is not idempotent: mapping an already enriched principal appends
   a second identity with the same claims, because the appended identity
   carries no tenant claim of its own.
   */
  lemma RepeatedMappingAppendsAgain(m: Mapping, p: Principal)
    requires m.groupClaimType != TenantIdClaimType
    requires MappedClaims(m, p) != []
    ensures PerformMappingOn(m, PerformMappingOn(m, p)) == PerformMappingOn(m, p) + [PerformMappingOn(m, p)[|p|]]
  {
    var added := Identity(Some(m.authenticationType), MappedClaims(m, p));
    var once := PerformMappingOn(m, p);
    assert once == p + [added];
    GroupClaimsAppend(p, [added], m.tenantId, m.tokenGroupClaimType);
    MapClaimsMembers(m.groupsMap, m.groupClaimType, GetGroupClaims(p, m.tenantId, m.tokenGroupClaimType));
    assert forall j :: 0 <= j < |added.claims| ==> added.claims[j] in MappedClaims(m, p);
    assert FindFirst(added.claims, TenantIdClaimType).None?;
    assert !IsEligible(added, m.tenantId);
    assert GetGroupClaims([added], m.tenantId, m.tokenGroupClaimType) == [];
    assert GetGroupClaims(once, m.tenantId, m.tokenGroupClaimType) == GetGroupClaims(p, m.tenantId, m.tokenGroupClaimType);
  }

  /**
   The worked example: tenant claim `t1`, group claim `g1`, map `{g1: Alpha}`
   and default options yield exactly one derived identity `MappedGroups` with
   the single role claim `Alpha`.
   */
  lemma RoundTripExample()
    ensures
      var identity := Identity(None, [Claim(TenantIdClaimType, "t1", StringValueType), Claim("groups", "g1", StringValueType)]);
      var m := Prepare(IdentityOptions(Some("t1"), None, None, None), Default(), GroupsMapDictionary(map["g1" := "Alpha"]));
      m.Success? &&
      PerformMappingOn(m.value, [identity]) ==
        [identity, Identity(Some("MappedGroups"), [Claim(RoleClaimType, "Alpha", StringValueType)])]
  {
    var tenantClaim := Claim(TenantIdClaimType, "t1", StringValueType);
    var groupClaim := Claim("groups", "g1", StringValueType);
    var identity := Identity(None, [tenantClaim, groupClaim]);
    var groupsMap := GroupsMapDictionary(map["g1" := "Alpha"]);
    var m := Prepare(IdentityOptions(Some("t1"), None, None, None), Default(), groupsMap).value;
    assert m == Mapping("t1", "groups", RoleClaimType, "MappedGroups", groupsMap);
    assert FindFirst(identity.claims, TenantIdClaimType) == Some(tenantClaim);
    assert IsEligible(identity, "t1");
    assert |TenantIdClaimType| != |"groups"|;
    assert identity.claims[1..] == [groupClaim];
    assert [groupClaim][1..] == [];
    assert ClaimsOfType(identity.claims, "groups") == ClaimsOfType([groupClaim], "groups") == [groupClaim];
    assert [identity][1..] == [];
    assert GetGroupClaims([identity], "t1", "groups") == [groupClaim];
    assert MapClaims(groupsMap, RoleClaimType, [groupClaim]) == [MappedClaim(RoleClaimType, "Alpha")];
  }

  /** A token group claim type differing only by a trailing space selects nothing. */
  lemma ClaimTypeMatchIsExact()
    ensures
      var identity := Identity(None, [Claim(TenantIdClaimType, "tenant1234", StringValueType),
                                      Claim("tokenclaimtype", "Id1234", StringValueType)]);
      GetGroupClaims([identity], "tenant1234", "tokenclaimtype ") == []
  {
    var tenantClaim := Claim(TenantIdClaimType, "tenant1234", StringValueType);
    var groupClaim := Claim("tokenclaimtype", "Id1234", StringValueType);
    var identity := Identity(None, [tenantClaim, groupClaim]);
    assert |"tokenclaimtype"| != |"tokenclaimtype "|;
    assert |TenantIdClaimType| != |"tokenclaimtype "|;
    assert identity.claims[1..] == [groupClaim];
    assert [groupClaim][1..] == [];
    assert ClaimsOfType(identity.claims, "tokenclaimtype ") == ClaimsOfType([groupClaim], "tokenclaimtype ") == [];
    assert [identity][1..] == [];
  }
}

=== FILE: obtainer.dfy ===
/**
 Per-scheme memoisation of groups maps (`GroupsMapObtainer`), modelled
 sequentially. The factory is an oracle: each call supplies the outcome the
 factory would produce if it were invoked now. The state also counts factory
 invocations per scheme; `GroupsMapObtainer` keeps no such counter, it exists
 so that "built at most once" can be stated.
 */
module Obtainer {
  import opened Wrappers
  import opened GroupsMaps

  datatype ObtainerState = ObtainerState(
    groupMaps: map<string, GroupsMapDictionary>,
    factoryCalls: map<string, nat>)

  /** A freshly constructed obtainer: no maps, no factory calls. */
  const Initial: ObtainerState := ObtainerState(map[], map[])

  /** How often the factory has been invoked for a scheme. */
  function CallsFor(s: ObtainerState, scheme: string): nat {
    if scheme in s.factoryCalls then s.factoryCalls[scheme] else 0
  }

  /** Every cached map was produced by a factory call, for a non-empty scheme. */
  predicate Consistent(s: ObtainerState) {
    forall scheme :: scheme in s.groupMaps ==> scheme != "" && CallsFor(s, scheme) >= 1
  }

  /** The state after `EnsureCreated`, and the factory's failure if it failed. */
  datatype Ensured = Ensured(state: ObtainerState, error: Option<Error>)

  /** The state after `GetOrCreate`, and what the call returned. */
  datatype Obtained = Obtained(state: ObtainerState, result: Result<GroupsMapDictionary>)

  /**
   `EnsureCreated`: a cached scheme is left alone without invoking the factory;
   otherwise the factory is invoked once and only a successful result is stored.
   Afterwards the scheme is cached unless the factory failed.
   */
  function EnsureCreated(s: ObtainerState, scheme: string, build: Result<GroupsMapDictionary>): (r: Ensured)
    ensures r.error.None? <==> scheme in r.state.groupMaps
    ensures r.error.Some? ==> build == Failure(r.error.value) && r.state.groupMaps == s.groupMaps
    ensures scheme in s.groupMaps ==> r == Ensured(s, None)
    ensures scheme !in s.groupMaps ==> CallsFor(r.state, scheme) == CallsFor(s, scheme) + 1
    ensures scheme !in s.groupMaps && build.Success? ==> r.state.groupMaps == s.groupMaps[scheme := build.value]
    ensures forall other :: other != scheme ==> CallsFor(r.state, other) == CallsFor(s, other)
  {
    if scheme in s.groupMaps then Ensured(s, None)
    else
      var counted := s.(factoryCalls := s.factoryCalls[scheme := CallsFor(s, scheme) + 1]);
      match build
      case Success(m) => Ensured(counted.(groupMaps := s.groupMaps[scheme := m]), None)
      case Failure(e) => Ensured(counted, Some(e))
  }

  /**
   `GetOrCreate`: a null or empty scheme is rejected with nothing done; a
   cached scheme returns its stored map without invoking the factory; otherwise
   the factory is invoked exactly once, its map is stored and returned, or its
   failure is returned with nothing stored.
   */
  function GetOrCreate(s: ObtainerState, scheme: Option<string>, build: Result<GroupsMapDictionary>): (r: Obtained)
    ensures IsNullOrEmpty(scheme) ==> r == Obtained(s, Failure(Argument("authenticationScheme")))
    ensures !IsNullOrEmpty(scheme) && scheme.value in s.groupMaps ==>
      r == Obtained(s, Success(s.groupMaps[scheme.value]))
    ensures !IsNullOrEmpty(scheme) && scheme.value !in s.groupMaps ==>
      && r.result == build
      && CallsFor(r.state, scheme.value) == CallsFor(s, scheme.value) + 1
      && (build.Success? ==> r.state.groupMaps == s.groupMaps[scheme.value := build.value])
      && (build.Failure? ==> r.state.groupMaps == s.groupMaps)
  {
    if IsNullOrEmpty(scheme) then Obtained(s, Failure(Argument("authenticationScheme")))
    else
      var ensured := EnsureCreated(s, scheme.value, build);
      if ensured.error.Some? then Obtained(ensured.state, Failure(ensured.error.value))
      else Obtained(ensured.state, Success(ensured.state.groupMaps[scheme.value]))
  }

  /** Obtaining a map keeps every cached map accounted for by a factory call. */
  lemma GetOrCreatePreservesConsistency(s: ObtainerState, scheme: Option<string>, build: Result<GroupsMapDictionary>)
    requires Consistent(s)
    ensures Consistent(GetOrCreate(s, scheme, build).state)
  {
    var t := GetOrCreate(s, scheme, build).state;
    forall other | other in t.groupMaps
      ensures other != "" && CallsFor(t, other) >= 1
    {
      if !IsNullOrEmpty(scheme) && other != scheme.value {
        OtherSchemesUntouched(s, scheme.value, other, build);
      }
    }
  }

  /**
   A call for one scheme leaves every other scheme's entry and factory count
   exactly as they were.
   */
  lemma OtherSchemesUntouched(s: ObtainerState, scheme: string, other: string, build: Result<GroupsMapDictionary>)
    requires scheme != other
    ensures var t := GetOrCreate(s, Some(scheme), build).state;
      && (other in t.groupMaps <==> other in s.groupMaps)
      && (other in s.groupMaps ==> t.groupMaps[other] == s.groupMaps[other])
      && CallsFor(t, other) == CallsFor(s, other)
  {
  }

  /**
   Two sequential calls for the same scheme, the first succeeding, return the
   same map; the second does not invoke the factory, whatever it would return.
   */
  lemma SecondCallHitsCache(s: ObtainerState, scheme: string, first: Result<GroupsMapDictionary>, second: Result<GroupsMapDictionary>)
    requires scheme != ""
    requires GetOrCreate(s, Some(scheme), first).result.Success?
    ensures var r1 := GetOrCreate(s, Some(scheme), first);
      var r2 := GetOrCreate(r1.state, Some(scheme), second);
      && r2.result == r1.result && r2.state == r1.state
      && (scheme in s.groupMaps ==> CallsFor(r2.state, scheme) == CallsFor(s, scheme))
      && (scheme !in s.groupMaps ==> CallsFor(r2.state, scheme) == CallsFor(s, scheme) + 1)
  {
  }

  /**
   A failed build stores nothing, so the next call for that scheme invokes the
   factory again and returns what it produces this time.
   */
  lemma FailureIsNotCached(s: ObtainerState, scheme: string, e: Error, next: Result<GroupsMapDictionary>)
    requires scheme != "" && scheme !in s.groupMaps
    ensures var r1 := GetOrCreate(s, Some(scheme), Failure(e));
      var r2 := GetOrCreate(r1.state, Some(scheme), next);
      r1.result == Failure(e) && r1.state.groupMaps == s.groupMaps &&
      r2.result == next && CallsFor(r2.state, scheme) == CallsFor(s, scheme) + 2
  {
  }

  /** One `GetOrCreate` request: the scheme asked for, and what the factory would return. */
  datatype Request = Request(scheme: Option<string>, build: Result<GroupsMapDictionary>)

  /** The state after serving a sequence of requests in order. */
  function Run(s: ObtainerState, requests: seq<Request>): ObtainerState
    decreases |requests|
  {
    if |requests| == 0 then s
    else Run(GetOrCreate(s, requests[0].scheme, requests[0].build).state, requests[1..])
  }

  /**
   Once a scheme's map is stored it is never replaced, and its factory is
   never invoked again, whatever requests follow.
   */
  lemma {:induction false} CachedEntryIsStable(s: ObtainerState, requests: seq<Request>, scheme: string)
    requires scheme in s.groupMaps
    ensures scheme in Run(s, requests).groupMaps
    ensures Run(s, requests).groupMaps[scheme] == s.groupMaps[scheme]
    ensures CallsFor(Run(s, requests), scheme) == CallsFor(s, scheme)
    decreases |requests|
  {
    if |requests| > 0 {
      var r := requests[0];
      var t := GetOrCreate(s, r.scheme, r.build).state;
      if !IsNullOrEmpty(r.scheme) && r.scheme.value != scheme {
        OtherSchemesUntouched(s, r.scheme.value, scheme, r.build);
      }
      CachedEntryIsStable(t, requests[1..], scheme);
    }
  }

  /** Two lookups for scheme A and then one for B, all building successfully, count one build each. */
  lemma TwoSchemesScenario(a: GroupsMapDictionary, b: GroupsMapDictionary)
    ensures var s := Run(Initial, [Request(Some("A"), Success(a)), Request(Some("A"), Success(a)), Request(Some("B"), Success(b))]);
      CallsFor(s, "A") == 1 && CallsFor(s, "B") == 1 && s.groupMaps == map["A" := a, "B" := b]
  {
    var reqs := [Request(Some("A"), Success(a)), Request(Some("A"), Success(a)), Request(Some("B"), Success(b))];
    var s1 := GetOrCreate(Initial, Some("A"), Success(a)).state;
    var s2 := GetOrCreate(s1, Some("A"), Success(a)).state;
    var s3 := GetOrCreate(s2, Some("B"), Success(b)).state;
    assert reqs[1..][1..][1..] == [];
    assert Run(Initial, reqs) == Run(s1, reqs[1..]) == Run(s2, reqs[1..][1..]) == Run(s3, []);
  }

  /** An empty scheme is rejected and the factory is never invoked. */
  lemma EmptySchemeScenario(build: Result<GroupsMapDictionary>)
    ensures GetOrCreate(Initial, Some(""), build).result == Failure(Argument("authenticationScheme"))
    ensures CallsFor(GetOrCreate(Initial, Some(""), build).state, "") == 0
  {
  }
}

=== FILE: options.dfy ===
/**
 Per-scheme configuration: the groups-mapping options of this library and the
 part of the identity-platform options the pipeline reads.
 */
module Options {
  import opened Wrappers
  import Claims

  /**
   `GroupsMappingOptions`. Each field is a settable string property, so it may
   be set to null after construction (`None`). Setting one property is a
   datatype update, which leaves the other two as they were.
   */
  datatype GroupsMappingOptions = GroupsMappingOptions(
    tokenGroupClaimType: Option<string>,
    authenticationType: Option<string>,
    groupClaimType: Option<string>)

  /** The options as the parameterless constructor leaves them. */
  function Default(): (o: GroupsMappingOptions)
    ensures o.tokenGroupClaimType == Some("groups")
    ensures o.authenticationType == Some("MappedGroups")
    ensures o.groupClaimType == Some(Claims.RoleClaimType)
  {
    GroupsMappingOptions(Some("groups"), Some("MappedGroups"), Some(Claims.RoleClaimType))
  }

  /** A certificate entry of the identity options; the certificate itself is opaque. */
  datatype CertificateDescription = CertificateDescription(certificate: string)

  /** The fields of the identity-platform options that the pipeline reads. */
  datatype IdentityOptions = IdentityOptions(
    tenantId: Option<string>,
    clientId: Option<string>,
    clientSecret: Option<string>,
    clientCertificates: Option<seq<CertificateDescription>>)
}

=== FILE: wrappers.dfy ===
/**
 Wrappers shared by every module of the model.

 `Option.None` stands for a C# `null` wherever the C# code branches on null;
 `Result.Failure` stands for a thrown exception, carrying which one.
 */
module Wrappers {

  /** A value that may be absent (`None` models a null reference). */
  datatype Option<+T> = None | Some(value: T)

  /** The exceptions the modelled code raises, by kind. */
  datatype Error =
    | ArgumentNull(paramName: string)      // ArgumentNullException
    | Argument(paramName: string)          // ArgumentException ("cannot be null or empty")
    | NotImplemented                       // NotImplementedException (no usable credential)
    | InvalidOperation(scheme: string)     // InvalidOperationException naming the scheme
    | KeyNotFound(key: string)             // KeyNotFoundException from the dictionary indexer
    | Directory(reason: string)            // any failure reported by the directory service

  /** The outcome of an operation that may throw. */
  datatype Result<+T> = Success(value: T) | Failure(error: Error)

  /** `string.IsNullOrEmpty`. */
  predicate IsNullOrEmpty(s: Option<string>) {
    s.None? || s.value == ""
  }
}
